=== FILE: README.md ===
# Book API request handler — Dafny model

A model of the CRUD handler of a small Deno HTTP service that keeps books
(`title`, `author`, `year`) in a MongoDB collection (`main.ts`), and of the
record mapper that turns a stored document into the external book shape
(`utilities.ts`).

The handler is modelled as a pure state machine:
`Handler.Handle(store, request, driver)` takes the collection as a
`map<Id, Fields>` from ObjectId to the three content fields, a request
(method, URL path, body already parsed as JSON) and the database's own
choices (the `_id` `insertOne` assigns, the order `find()` returns
documents in), and yields either a reply (status, body shape, next
collection) or an error the handler throws and never catches.

What the code does, and the model with it:

- routing is the `startsWith` cascade of `main.ts`, in its order. Every
  path under "/books/_id" also starts with "/books", so a GET for one book
  by id answers with the whole list and the get-by-id branch is never
  reached (see Findings);
- the path id is `String(path.split("/").at(3))`. A missing fourth segment
  is the truthy text `"undefined"`, so only an empty segment gets the
  "ID missing" 400; without a segment, delete throws in
  `new ObjectId("undefined")`, and so does update once its body has a
  truthy field (the body is checked first);
- field checks use JavaScript truthiness (`""`, `0`, `false`, `null` and
  an absent field all fail). Create needs all three fields truthy; update
  needs at least one truthy field, which is not the same as present;
- `new ObjectId(text)` accepts exactly 24 hexadecimal digits. Any other
  text makes it throw, which the model returns as `Uncaught(MalformedObjectId(text))`;
- `updateOne` with `$set` writes all three fields, replacing rather than
  merging. The driver writes a field absent from the body (`undefined`) as
  `null`, so that is what is stored and compared. The reply echoes the
  body's own values, and `body.id` rather than the id in the path;
- `modifiedCount` is 0, and the answer 404, exactly when no document has
  the id or the document already holds those values;
- `deleteOne` removes the document if present.

Modules: `Optional` (Option), `Json` (parsed body values, truthiness,
property reads), `Paths` (`startsWith`, `split`/`join`, `at`, `String`),
`ObjectIds` (ObjectId text), `Books` (the mapper of `utilities.ts`),
`Handler` (routing and the five branches of `main.ts`) and
`HandlerProperties` (the per-branch and multi-request properties).

## Model

| member | source | states |
|---|---|---|
| Json.FalsyValues | main.ts:56 | exactly `undefined`, `null`, `false`, `0` and `""` fail the `!body.field` tests; every other value, including arrays and objects, passes |
| Paths.Split | main.ts:32 | `split("/")` always yields at least one part |
| Paths.SplitPartsLackSep | main.ts:32 | no part of a split contains the separator |
| Paths.JoinSplit | main.ts:32 | splitting loses nothing: joining the parts with the separator gives back the path |
| Paths.SplitJoin | main.ts:32 | separator-free parts joined and split again come back unchanged, so segment 3 is the text after the third slash |
| Paths.SplitAround | main.ts:32 | splitting at a separator splits the two sides independently |
| Paths.StartsWithTransitive | main.ts:24-31 | a path starting with "/books/_id" also starts with "/books" |
| ObjectIds.Parse | main.ts:137-139 | `new ObjectId(text)` succeeds exactly on 24 hex digits and yields their lower-case form |
| ObjectIds.ToHexString | utilities.ts:5 | an ObjectId's text is 24 lower-case hex digits |
| ObjectIds.ParseToHexString | utilities.ts:5 | the text form of an ObjectId parses back to the same ObjectId |
| ObjectIds.ParseIgnoresCase | main.ts:137-139 | texts that differ only in letter case name the same ObjectId |
| Books.GetBookFromModel | utilities.ts:3-10 | requires `_id` present; `id` is the canonical 24-digit text of `_id` and parses back to it; title, author and year are copied verbatim |
| Books.GetBookFromModelSeparatesIds | utilities.ts:5 | documents with different `_id` map to different `id` texts |
| Handler.Route | main.ts:23-155 | no method and path reaches the get-by-id branch; the fall-through is taken exactly for requests no prefix test claims |
| Handler.PathId | main.ts:32 | the extracted id never contains a slash, whether a segment or "undefined" (it is built from `Paths.Split`, `Paths.At` for `.at(3)` and `Paths.StringOf` for `String(...)`) |
| Handler.Stored | main.ts:101-104 | the value `$set` stores is never `undefined` and is truthy exactly when the body's value is; `Handler.SetFields` applies it to the three fields of the `$set` document |
| Handler.ScanLength | main.ts:25 | a scan listing every stored id once has as many entries as the store |
| Handler.ListBooks | main.ts:24-30 | the list answers 200, keeps the store, and has one book per stored document, the i-th naming the i-th scanned id |
| Handler.GetBook | main.ts:31-52 | get-by-id keeps the store, answers only 200 or 400, a 200 carries the stored book the path names, and it throws only on a malformed id |
| Handler.CreateBook | main.ts:53-81 | create throws exactly on a nullish body; it answers 200, 400 or 403; only a 200 changes the store, adding one document under the fresh id whose three fields are truthy and whose triple no other document has |
| Handler.UpdateBook | main.ts:84-124 | update never adds or removes a document; it answers 200, 400 or 404; only a 200 changes the store, and then changes it, and only the document the path names |
| Handler.DeleteBook | main.ts:126-151 | delete answers 200, 400 or 404; only a 200 changes the store, removing exactly the document the path names and keeping every other |
| Handler.Dispatch | main.ts:23-155 | error replies leave the store unchanged; only create adds, only delete removes, only update changes a record; list, get and fall-through never change the store; only the id- or body-reading branches throw |
| Handler.Handle | main.ts:18-156 | the same frame conditions per request method; every GET answers and leaves the store unchanged |
| Handler.HandleIntended | main.ts:23-52 | with the GET tests reordered (`Handler.RouteIntended`), error replies and GETs still leave the store unchanged |
| HandlerProperties.PathIdOfByIdPath | main.ts:32 | for "/books/_id/<id>" and "/books/_id/<id>/…" the extracted id is `<id>` |
| HandlerProperties.PathIdWithoutSegment | main.ts:128 | for "/books/_id" the extracted id is the truthy text "undefined" |
| HandlerProperties.PathIdOfEmptySegment | main.ts:128 | for "/books/_id/" the extracted id is "" |
| HandlerProperties.ByIdPathNames | main.ts:127-128 | "/books/_id/" followed by an ObjectId's text routes under "/books/_id" and its path id parses back to that ObjectId |
| HandlerProperties.GetByIdPathListsAll | main.ts:24-30 | every GET under "/books/_id" answers 200 with each stored book exactly once and leaves the store unchanged |
| HandlerProperties.RouteIntendedDiffersOnlyOnGetById | main.ts:23-31 | the reordered routing differs from the original exactly on GETs under "/books/_id", which it sends to get-by-id |
| HandlerProperties.IntendedGetById | main.ts:31-52 | with the intended order, a GET under "/books/_id" whose id segment parses answers 200 with the mapped book, or 400 "Libro no encontrado" when absent, and keeps the store |
| HandlerProperties.MappedIdsDistinct | main.ts:26-28 | books mapped from distinct ids carry distinct `id` texts |
| HandlerProperties.MappedBooksAreStored | main.ts:26-28 | every listed book is the mapping of a stored document |
| HandlerProperties.StoredBooksAreMapped | main.ts:26-28 | every stored document appears, mapped, in the list |
| HandlerProperties.ListBooksEachOnce | main.ts:25-30 | the list holds one mapped book per stored document, nothing else, with distinct ids |
| HandlerProperties.ListAllReturnsEachBookOnce | main.ts:24-30 | every GET under "/books" answers 200 with each stored book exactly once and leaves the store unchanged |
| HandlerProperties.CreateWithNullBodyThrows | main.ts:55-56 | a null body makes the field check throw |
| HandlerProperties.CreateRejectsFalsyField | main.ts:56-61 | a falsy title, author or year (each read as `body.x` by `Json.Member`) gives 400 and the store is unchanged |
| HandlerProperties.CreateAddsUnlessDuplicate | main.ts:62-81 | with truthy fields: 403 and nothing stored exactly when the triple exists; otherwise 200 echoing the fresh id and fields, with exactly that one document added |
| HandlerProperties.UpdateRejectsEmptyBody | main.ts:89-100 | a body with no truthy field gives 400 and the store is unchanged |
| HandlerProperties.UpdateOverwritesTarget | main.ts:101-124 | when the stored values differ from what `$set` writes (absent fields as null), all three fields of the target are replaced and the reply echoes the body's values and `body.id`; otherwise 404 with the store unchanged; no other book changes and no key is added or removed |
| HandlerProperties.UpdateWithOnlyTitleClearsOthers | main.ts:101-124 | an update carrying only a title stores null author and year, and answers 200 echoing an undefined id, author and year; it requires the document not to hold that triple already |
| HandlerProperties.UpdateWithMalformedIdThrows | main.ts:101-102 | once the body passes, an id segment that is not 24 hex digits makes the update throw |
| HandlerProperties.DeleteRoute | main.ts:126-127 | DELETE on a path under "/books/_id" runs the delete branch |
| HandlerProperties.DeleteMissingIdExactlyOnEmptySegment | main.ts:128-135 | the "ID missing" 400 is given exactly when the fourth segment exists and is empty |
| HandlerProperties.DeleteWithMalformedIdThrows | main.ts:137-139 | a non-empty id segment that is not 24 hex digits makes the delete throw |
| HandlerProperties.DeleteWithoutIdSegmentThrows | main.ts:128-139 | DELETE /books/_id passes the check with "undefined" and `new ObjectId` throws |
| HandlerProperties.DeleteWithEmptyIdSegmentIsBadRequest | main.ts:130-135 | DELETE /books/_id/ gives the "ID missing" 400 |
| HandlerProperties.DeleteRemovesOnlyTarget | main.ts:137-151 | for any DELETE under "/books/_id" whose id segment parses: an absent id gives 404 with nothing changed; a present one is removed alone and the answer is 200 with the success text under `error` |
| HandlerProperties.OnlyNoRouteSaysPathNotFound | main.ts:155 | no branch but the fall-through answers 404 "Path not found" |
| HandlerProperties.UnroutedIsPathNotFound | main.ts:155 | "Path not found" 404 with the store unchanged is the answer exactly for requests no branch claims |
| HandlerProperties.HandlePreservesNoDuplicates | main.ts:68-72 | every request except PUT keeps the collection free of duplicate triples |
| HandlerProperties.UpdateCanDuplicate | main.ts:101-104 | a PUT that writes another book's triple creates a duplicate, because the check runs only on insert |
| HandlerProperties.ListingShowsAddedBook | main.ts:25-30 | a listing of a store with one added document shows it once under its id |
| HandlerProperties.CreateTwiceIsRefused | main.ts:68-71 | repeating a successful create gives 403 and stores nothing more |
| HandlerProperties.CreateThenListShowsBookOnce | main.ts:72-81 | after a create, a list shows the new book once, under the new id, among one more book than before |
| HandlerProperties.DeleteThenGetIsNotFound | main.ts:141-151 | after deleting an id, get-by-id with the intended routing answers 400 not found |

## Findings

| source | as written | input that shows it | evidently intended | confidence | as-written member | corrected member |
|---|---|---|---|---|---|---|
| main.ts:24-31 | GET tests the "/books" prefix before "/books/_id", so the second test never runs | `GET /books/_id/<24 hex digits>` answers with the whole list | GET /books/_id/<id> reaches get-by-id | high; not executed | HandlerProperties.GetByIdPathListsAll | HandlerProperties.IntendedGetById |

`Handler.Handle` models the routing as written, and
the contract of `Handler.Route` proves the branch dead.
`Handler.HandleIntended` swaps the two GET tests. The get-by-id branch
(`Handler.GetBook`) is modelled as the code writes it, and its behaviour is
proved through the corrected routing.

## Left out

- Process start-up (main.ts:5-16): reading `MONGO_URL`, exiting when it is absent, connecting the client, and `Deno.serve` (main.ts:158) are outside the model.
- `console.log` output (main.ts:13, main.ts:87) is outside the model.
- Response headers (`Content-Type`) and the exact JSON text of bodies are not modelled. Bodies are modelled by shape (`Handler.Payload`).
- `req.json()` is modelled by its result only. Bodies that are not valid JSON, and the rejection they cause, are not modelled.
- The database is abstracted as a map:
  - `findOne` with the `{title, author, year}` filter is exact equality of the three values. MongoDB's query semantics are not modelled:
    - its array and numeric-type matching rules;
    - an object-valued body field is read by MongoDB as a query operator, so `{"title":{"$ne":null},"author":{"$ne":null},"year":{"$ne":null}}` matches every stored book whose title, author and year are all non-null, so the source answers 403 whenever such a book exists, where the model answers 200 and inserts;
    - MongoDB compares embedded documents including key order, while `Json.Obj` is a map without order; this affects both the duplicate check on create and the "modified" test on update.
  - Store faults (connection loss, timeouts) are not modelled.
- The `_id` that `insertOne` assigns and the order `find()` returns documents in are inputs (`Handler.Driver`): the fresh id must not be in use, and the order must list every stored id once.
- `new ObjectId(text)` follows the rule of current BSON libraries: exactly 24 hex digits. Older libraries also accepted 12-character strings as raw bytes, which is not modelled.
- JSON numbers are IEEE doubles, modelled as reals: rounding, and the overflow of a huge literal to Infinity, are not modelled. BSON's distinction between integer and double is not modelled either.
- The method string is taken as received. Any normalisation the runtime applies to it is not modelled.
- Concurrency is not modelled. Create checks for a duplicate and then inserts in two steps, and two interleaved creates can both pass the check. The model handles one request at a time.

=== FILE: books.dfy ===
/**
 The record mapper of utilities.ts: a stored book document becomes the
 book shape the API returns, with the ObjectId exposed as text under `id`.
 */
module Books {
  import opened Optional
  import opened Json
  import opened ObjectIds

  /** A stored document; the type leaves `_id` optional. */
  datatype BookModel = BookModel(oid: Option<Id>, title: Value, author: Value, year: Value)

  /** The external book shape. */
  datatype Book = Book(id: string, title: Value, author: Value, year: Value)

  /**
   getBookFromModel. The `_id!` assertion is never checked at run time, so
   a present `_id` is the caller's obligation.
   */
  function GetBookFromModel(m: BookModel): (b: Book)
    requires m.oid.Some?
    ensures Parse(b.id) == m.oid && IsCanonical(b.id)
    ensures b.title == m.title
    ensures b.author == m.author
    ensures b.year == m.year
  {
    ParseToHexString(m.oid.value);
    Book(ToHexString(m.oid.value), m.title, m.author, m.year)
  }

  /** Books with different ObjectIds never share an `id`. */
  lemma GetBookFromModelSeparatesIds(m: BookModel, n: BookModel)
    requires m.oid.Some? && n.oid.Some?
    requires m.oid != n.oid
    ensures GetBookFromModel(m).id != GetBookFromModel(n).id
  {
  }
}

=== FILE: handler.dfy ===
/**
 The request handler of main.ts as a pure state machine: a request and the
 current book collection go in; a response and the next collection come
 out, or the handler throws an error it never catches.
 */
module Handler {
  import opened Optional
  import opened Json
  import opened Paths
  import opened ObjectIds
  import opened Books

  /** The content fields of a stored book; its `_id` is the key it is stored under. */
  datatype Fields = Fields(title: Value, author: Value, year: Value)

  /** The `libros` collection. */
  type Store = map<Id, Fields>

  /** what the handler reads of a request: method, URL path, and the body once parsed as JSON. */
  datatype Request = Request(verb: string, path: string, body: Value)

  /** Response bodies, by shape. */
  datatype Payload =
    | BookList(books: seq<Book>)                                            // JSON array of books
    | OneBook(book: Book)                                                   // one book as JSON
    | Inserted(newId: Id, title: Value, author: Value, year: Value)         // `{id, title, author, year}` after insertOne
    | Updated(message: string, echoId: Value, title: Value, author: Value, year: Value) // `{message, libro: {...}}`
    | ErrorObject(error: string)                                            // `{error: ...}`
    | JsonText(text: string)                                                // a JSON-encoded string
    | PlainText(text: string)                                               // text that is not JSON

  datatype Response = Response(status: nat, payload: Payload)

  /** Errors the handler throws and never catches. */
  datatype Fault =
    | MalformedObjectId(text: string)   // `new ObjectId(text)` rejects its argument
    | PropertyOfNullish                 // the body is null, so `body.title` throws

  datatype Outcome = Reply(response: Response, store: Store) | Uncaught(fault: Fault)

  /**
   The choices the database makes on its own: the `_id` insertOne assigns,
   and the order in which find() returns the documents.
   */
  datatype Driver = Driver(freshId: Id, scanOrder: seq<Id>)

  /** `order` lists every stored id exactly once. */
  predicate IsScanOf(order: seq<Id>, store: Store) {
    && (forall i, j :: 0 <= i < j < |order| ==> order[i] != order[j])
    && (forall i :: 0 <= i < |order| ==> order[i] in store)
    && (forall id :: id in store ==> id in order)
  }

  predicate ValidDriver(store: Store, d: Driver) {
    d.freshId !in store && IsScanOf(d.scanOrder, store)
  }

  const BooksPrefix := "/books"
  const ByIdPrefix := "/books/_id"

  const MsgIdMissing := "Bad request, ID missing in path"
  const MsgNotFound := "Libro no encontrado"
  const MsgFieldMissing := "Bad request, some field missing in request body"
  const MsgExists := "Book already exists in DB"
  const MsgNeedOneField := "Debe enviar al menos un campo para actualizar (title, author, year)"
  const MsgIdNotExist := "error : El ID del libro no existe."
  const MsgUpdated := "Libro actualizado exitosamente"
  const MsgDeleted := "Libro eliminado exitosamente"
  const MsgNoPath := "Path not found"

  /** The branches of the handler. */
  datatype Branch = ListAll | GetOne | Create | Update | Delete | NoRoute

  /** The (method, path) pairs some branch claims. */
  predicate Routed(verb: string, path: string) {
    || (verb in {"GET", "POST"} && StartsWith(path, BooksPrefix))
    || (verb in {"PUT", "DELETE"} && StartsWith(path, ByIdPrefix))
  }

  /**
   The dispatch on method and path prefix, in the order main.ts tests them.
   Because "/books/_id" extends "/books", the get-by-id branch is never chosen.
   */
  function Route(verb: string, path: string): (b: Branch)
    ensures b != GetOne
    ensures b == NoRoute <==> !Routed(verb, path)
  {
    assert StartsWith(path, ByIdPrefix) ==> StartsWith(path, BooksPrefix) by {
      if StartsWith(path, ByIdPrefix) {
        StartsWithTransitive(path, BooksPrefix, ByIdPrefix);
      }
    }
    if verb == "GET" then
      if StartsWith(path, BooksPrefix) then ListAll
      else if StartsWith(path, ByIdPrefix) then GetOne
      else NoRoute
    else if verb == "POST" then
      if StartsWith(path, BooksPrefix) then Create else NoRoute
    else if verb == "PUT" then
      if StartsWith(path, ByIdPrefix) then Update else NoRoute
    else if verb == "DELETE" then
      if StartsWith(path, ByIdPrefix) then Delete else NoRoute
    else NoRoute
  }

  /** The dispatch with the two GET prefix tests in the order that makes both reachable. */
  function RouteIntended(verb: string, path: string): Branch {
    if verb == "GET" then
      if StartsWith(path, ByIdPrefix) then GetOne
      else if StartsWith(path, BooksPrefix) then ListAll
      else NoRoute
    else Route(verb, path)
  }

  /**
   `String(path.split("/").at(3))`: the id segment, or "undefined" when the
   path has too few. Either way the text holds no slash.
   */
  function PathId(path: string): (text: string)
    ensures '/' !in text
  {
    SplitPartsLackSep(path, '/');
    StringOf(At(Split(path, '/'), 3))
  }

  /** A stored document mapped to the external shape. */
  function ToBook(id: Id, f: Fields): Book {
    GetBookFromModel(BookModel(Some(id), f.title, f.author, f.year))
  }

  /** The content fields the body supplies; absent ones read as undefined. */
  function BodyFields(body: Value): Fields
    requires !IsNullish(body)
  {
    Fields(Member(body, Title), Member(body, Author), Member(body, Year))
  }

  /**
   What the database stores for a value it is sent: the driver writes
   `undefined` as `null` (its default, `ignoreUndefined: false`).
   */
  function Stored(v: Value): (w: Value)
    ensures w != Undefined
    ensures Truthy(w) == Truthy(v)
  {
    if v.Undefined? then Null else v
  }

  /** The three fields `$set` writes for this body. */
  function SetFields(body: Value): Fields
    requires !IsNullish(body)
  {
    var f := BodyFields(body);
    Fields(Stored(f.title), Stored(f.author), Stored(f.year))
  }

  /** A scan listing every stored id once has as many entries as the store. */
  lemma {:induction false} ScanLength(order: seq<Id>, store: Store)
    requires IsScanOf(order, store)
    ensures |order| == |store.Keys| == |store|
    decreases |order|
  {
    if |order| == 0 {
      assert store.Keys == {};
    } else {
      var last := order[|order| - 1];
      var init := order[..|order| - 1];
      var rest := store - {last};
      assert rest.Keys == store.Keys - {last};
      forall id | id in rest ensures id in init {
        var i :| 0 <= i < |order| && order[i] == id;
        assert i != |order| - 1;
        assert init[i] == id;
      }
      forall i | 0 <= i < |init| ensures init[i] in rest {
        assert init[i] == order[i];
      }
      ScanLength(init, rest);
    }
  }

  /** find() then the mapper: one book per stored document, the store untouched. */
  function ListBooks(store: Store, order: seq<Id>): (o: Outcome)
    requires IsScanOf(order, store)
    ensures o.Reply? && o.store == store && o.response.status == 200
    ensures o.response.payload.BookList? && |o.response.payload.books| == |order| == |store|
    ensures forall i :: 0 <= i < |o.response.payload.books| ==>
      Parse(o.response.payload.books[i].id) == Some(order[i])
  {
    ScanLength(order, store);
    var books := seq(|order|, i requires 0 <= i < |order| => ToBook(order[i], store[order[i]]));
    Reply(Response(200, BookList(books)), store)
  }

  /** The get-by-id branch: a 200 carries the stored book named by the path. */
  function GetBook(store: Store, path: string): (o: Outcome)
    ensures o.Reply? ==> o.store == store && o.response.status in {200, 400}
    ensures o.Reply? && o.response.status == 200 ==>
      && o.response.payload.OneBook?
      && Parse(PathId(path)).Some?
      && var id := Parse(PathId(path)).value;
         id in store && o.response.payload.book == ToBook(id, store[id])
    ensures o.Uncaught? ==> o.fault == MalformedObjectId(PathId(path))
  {
    var text := PathId(path);
    if !Truthy(Str(text)) then Reply(Response(400, ErrorObject(MsgIdMissing)), store)
    else
      match Parse(text)
      case None => Uncaught(MalformedObjectId(text))
      case Some(id) =>
        if id !in store then Reply(Response(400, ErrorObject(MsgNotFound)), store)
        else Reply(Response(200, OneBook(ToBook(id, store[id]))), store)
  }

  /**
   The create branch: a 200 adds exactly one document, under the fresh id,
   with three truthy fields that no other document shares.
   */
  function CreateBook(store: Store, body: Value, freshId: Id): (o: Outcome)
    requires freshId !in store
    ensures o.Reply? ==> o.response.status in {200, 400, 403}
    ensures o.Reply? && o.response.status != 200 ==> o.store == store
    ensures o.Reply? && o.response.status == 200 ==>
      && o.store.Keys == store.Keys + {freshId}
      && |o.store| == |store| + 1
      && (forall id :: id in store ==> o.store[id] == store[id] != o.store[freshId])
      && Truthy(o.store[freshId].title) && Truthy(o.store[freshId].author) && Truthy(o.store[freshId].year)
    ensures o.Uncaught? <==> IsNullish(body)
  {
    if IsNullish(body) then Uncaught(PropertyOfNullish)
    else
      var f := BodyFields(body);
      if !Truthy(f.title) || !Truthy(f.author) || !Truthy(f.year) then
        Reply(Response(400, JsonText(MsgFieldMissing)), store)
      else if f in store.Values then
        Reply(Response(403, PlainText(MsgExists)), store)
      else
        assert (store[freshId := f]).Keys == store.Keys + {freshId};
        Reply(Response(200, Inserted(freshId, f.title, f.author, f.year)), store[freshId := f])
  }

  /**
   updateOne with `$set` of all three fields. Its modifiedCount is 0 exactly
   when no document has the id or the document already holds these values,
   so a 200 always changes the one document the path names, and only it.
   */
  function UpdateBook(store: Store, path: string, body: Value): (o: Outcome)
    ensures o.Reply? ==> o.store.Keys == store.Keys && o.response.status in {200, 400, 404}
    ensures o.Reply? && o.response.status != 200 ==> o.store == store
    ensures o.Reply? && o.response.status == 200 ==>
      && o.store != store
      && Parse(PathId(path)).Some?
      && forall k :: k in store && o.store[k] != store[k] ==> Some(k) == Parse(PathId(path))
  {
    var text := PathId(path);
    if IsNullish(body) then Uncaught(PropertyOfNullish)
    else
      var f := BodyFields(body);
      if !Truthy(f.title) && !Truthy(f.author) && !Truthy(f.year) then
        Reply(Response(400, ErrorObject(MsgNeedOneField)), store)
      else
        match Parse(text)
        case None => Uncaught(MalformedObjectId(text))
        case Some(id) =>
          var g := SetFields(body);
          if id in store && store[id] != g then
            assert (store[id := g])[id] != store[id];
            Reply(Response(200, Updated(MsgUpdated, Member(body, IdKey), f.title, f.author, f.year)), store[id := g])
          else
            Reply(Response(404, JsonText(MsgIdNotExist)), store)
  }

  /** The delete branch: a 200 removes exactly the document the path names. */
  function DeleteBook(store: Store, path: string): (o: Outcome)
    ensures o.Reply? ==> o.response.status in {200, 400, 404}
    ensures o.Reply? && o.response.status != 200 ==> o.store == store
    ensures o.Reply? && o.response.status == 200 ==>
      && Parse(PathId(path)).Some?
      && Parse(PathId(path)).value in store
      && o.store.Keys == store.Keys - {Parse(PathId(path)).value}
      && forall k :: k in o.store ==> o.store[k] == store[k]
  {
    var text := PathId(path);
    if !Truthy(Str(text)) then Reply(Response(400, ErrorObject(MsgIdMissing)), store)
    else
      match Parse(text)
      case None => Uncaught(MalformedObjectId(text))
      case Some(id) =>
        if id !in store then Reply(Response(404, ErrorObject(MsgNotFound)), store)
        else Reply(Response(200, ErrorObject(MsgDeleted)), store - {id})
  }

  /** Runs one branch against the store. */
  function Dispatch(branch: Branch, store: Store, req: Request, d: Driver): (o: Outcome)
    requires ValidDriver(store, d)
    ensures o.Reply? && o.response.status != 200 ==> o.store == store
    ensures o.Reply? && branch != Create ==> o.store.Keys <= store.Keys
    ensures o.Reply? && branch != Delete ==> store.Keys <= o.store.Keys
    ensures o.Reply? ==> o.store.Keys <= store.Keys + {d.freshId}
    ensures o.Reply? && branch in {ListAll, GetOne, NoRoute} ==> o.store == store
    ensures o.Reply? ==> forall id :: id in store && id in o.store && o.store[id] != store[id] ==> branch == Update
    ensures o.Uncaught? ==> branch in {GetOne, Create, Update, Delete}
  {
    match branch
    case ListAll => ListBooks(store, d.scanOrder)
    case GetOne => GetBook(store, req.path)
    case Create => CreateBook(store, req.body, d.freshId)
    case Update => UpdateBook(store, req.path, req.body)
    case Delete => DeleteBook(store, req.path)
    case NoRoute => Reply(Response(404, PlainText(MsgNoPath)), store)
  }

  /** The handler as written. */
  function Handle(store: Store, req: Request, d: Driver): (o: Outcome)
    requires ValidDriver(store, d)
    ensures o.Reply? && o.response.status != 200 ==> o.store == store
    ensures o.Reply? && req.verb != "POST" ==> o.store.Keys <= store.Keys
    ensures o.Reply? && req.verb != "DELETE" ==> store.Keys <= o.store.Keys
    ensures o.Reply? ==> o.store.Keys <= store.Keys + {d.freshId}
    ensures o.Reply? ==> forall id :: id in store && id in o.store && o.store[id] != store[id] ==> req.verb == "PUT"
    ensures req.verb == "GET" ==> o.Reply? && o.store == store
  {
    Dispatch(Route(req.verb, req.path), store, req, d)
  }

  /** The handler with the GET routes in the intended order. */
  function HandleIntended(store: Store, req: Request, d: Driver): (o: Outcome)
    requires ValidDriver(store, d)
    ensures o.Reply? && o.response.status != 200 ==> o.store == store
    ensures o.Reply? && req.verb == "GET" ==> o.store == store
  {
    Dispatch(RouteIntended(req.verb, req.path), store, req, d)
  }
}

=== FILE: handler_properties.dfy ===
/**
 What the handler promises, branch by branch, and across requests.
 */
module HandlerProperties {
  import opened Optional
  import opened Json
  import opened Paths
  import opened ObjectIds
  import opened Books
  import opened Handler

  // ---------------------------------------------------------------------------
  // Paths and ids

  /** The by-id path is the join of its four segments. */
  lemma JoinByIdParts(id: string)
    ensures Join(["", "books", "_id", id], '/') == "/books/_id/" + id
  {
    var ps := ["", "books", "_id", id];
    assert ps[1..] == ["books", "_id", id];
    assert ps[1..][1..] == ["_id", id];
    assert ps[1..][1..][1..] == [id];
    assert Join(["_id", id], '/') == "_id" + "/" + id;
    assert Join(["books", "_id", id], '/') == "books" + "/" + ("_id" + "/" + id);
    assert Join(ps, '/') == "" + "/" + ("books" + "/" + ("_id" + "/" + id));
  }

  /** An ObjectId's text holds no slash. */
  lemma NoSlashInId(id: Id)
    ensures '/' !in id
  {
    forall i | 0 <= i < |id| ensures id[i] != '/' {
      assert IsLowerHexDigit(id[i]);
    }
  }

  /** The id is the text right after "/books/_id/", up to the next slash. */
  lemma PathIdOfByIdPath(id: string, rest: string)
    requires '/' !in id
    ensures PathId("/books/_id/" + id) == id
    ensures PathId("/books/_id/" + id + "/" + rest) == id
  {
    var ps := ["", "books", "_id", id];
    JoinByIdParts(id);
    SplitJoin(ps, '/');
    assert Split("/books/_id/" + id, '/') == ps;
    SplitAround("/books/_id/" + id, rest, '/');
    assert "/books/_id/" + id + "/" + rest == ("/books/_id/" + id) + ['/'] + rest;
    assert Split("/books/_id/" + id + "/" + rest, '/')[3] == id;
  }

  /** Without a fourth segment the id is the truthy text "undefined". */
  lemma PathIdWithoutSegment()
    ensures PathId("/books/_id") == "undefined"
  {
    var ps := ["", "books", "_id"];
    assert ps[1..] == ["books", "_id"];
    assert ps[1..][1..] == ["_id"];
    assert Join(ps, '/') == "/books/_id";
    SplitJoin(ps, '/');
  }

  /** With an empty fourth segment the id is "". */
  lemma PathIdOfEmptySegment()
    ensures PathId("/books/_id/") == ""
  {
    PathIdOfByIdPath("", "");
    assert "/books/_id/" + "" == "/books/_id/";
  }

  // ---------------------------------------------------------------------------
  // Routing (main.ts:23-31): the get-by-id branch is dead

  /**
   A GET for one book by id answers 200 with the whole list instead, and
   changes nothing: the list route claims every path under "/books".
   */
  lemma GetByIdPathListsAll(store: Store, req: Request, d: Driver)
    requires ValidDriver(store, d)
    requires req.verb == "GET" && StartsWith(req.path, ByIdPrefix)
    ensures Handle(store, req, d).Reply?
    ensures Handle(store, req, d).store == store
    ensures Handle(store, req, d).response.status == 200
    ensures Handle(store, req, d).response.payload.BookList?
    ensures ListsEachOnce(Handle(store, req, d).response.payload.books, store)
  {
    StartsWithTransitive(req.path, BooksPrefix, ByIdPrefix);
    ListAllReturnsEachBookOnce(store, req, d);
  }

  /** Reordering the GET tests changes only the routing of GETs under "/books/_id". */
  lemma RouteIntendedDiffersOnlyOnGetById(verb: string, path: string)
    ensures RouteIntended(verb, path) != Route(verb, path) <==> verb == "GET" && StartsWith(path, ByIdPrefix)
    ensures RouteIntended(verb, path) == GetOne <==> verb == "GET" && StartsWith(path, ByIdPrefix)
  {
  }

  /**
   With the intended order, a GET under "/books/_id" whose id segment parses
   finds the book, or answers 400 when it is absent.
   */
  lemma IntendedGetById(store: Store, req: Request, d: Driver, id: Id)
    requires ValidDriver(store, d)
    requires req.verb == "GET" && StartsWith(req.path, ByIdPrefix)
    requires Parse(PathId(req.path)) == Some(id)
    ensures id in store ==>
      HandleIntended(store, req, d) == Reply(Response(200, OneBook(ToBook(id, store[id]))), store)
    ensures id !in store ==>
      HandleIntended(store, req, d) == Reply(Response(400, ErrorObject(MsgNotFound)), store)
  {
    assert PathId(req.path) != "";
  }

  /** The canonical by-id path of a stored id routes under "/books/_id" and names that id. */
  lemma ByIdPathNames(id: Id)
    ensures StartsWith("/books/_id/" + id, ByIdPrefix)
    ensures Parse(PathId("/books/_id/" + id)) == Some(id)
  {
    NoSlashInId(id);
    PathIdOfByIdPath(id, "");
    ParseToHexString(id);
  }

  // ---------------------------------------------------------------------------
  // List all (main.ts:24-30)

  /** `b` is the mapping of some stored document. */
  ghost predicate IsStoredBook(b: Book, store: Store) {
    exists id :: id in store && b == ToBook(id, store[id])
  }

  /** The stored document under `id` appears, mapped, in `books`. */
  ghost predicate IsListed(id: Id, store: Store, books: seq<Book>)
    requires id in store
  {
    exists i :: 0 <= i < |books| && books[i] == ToBook(id, store[id])
  }

  /** `books` holds one mapped book per stored document and nothing else. */
  ghost predicate ListsEachOnce(books: seq<Book>, store: Store) {
    && |books| == |store|
    && (forall i :: 0 <= i < |books| ==> IsStoredBook(books[i], store))
    && (forall id :: id in store ==> IsListed(id, store, books))
    && (forall i, j :: 0 <= i < j < |books| ==> books[i].id != books[j].id)
  }

  /** Books mapped from a list of distinct ids have distinct `id` texts. */
  lemma MappedIdsDistinct(store: Store, order: seq<Id>, books: seq<Book>)
    requires IsScanOf(order, store)
    requires |books| == |order|
    requires forall i :: 0 <= i < |order| ==> books[i] == ToBook(order[i], store[order[i]])
    ensures forall i, j :: 0 <= i < j < |books| ==> books[i].id != books[j].id
  {
    forall i, j | 0 <= i < j < |books| ensures books[i].id != books[j].id {
      assert Parse(books[i].id) == Some(order[i]);
      assert Parse(books[j].id) == Some(order[j]);
    }
  }

  /** Every book mapped from a scan is a stored book. */
  lemma MappedBooksAreStored(store: Store, order: seq<Id>, books: seq<Book>)
    requires IsScanOf(order, store)
    requires |books| == |order|
    requires forall i :: 0 <= i < |order| ==> books[i] == ToBook(order[i], store[order[i]])
    ensures forall i :: 0 <= i < |books| ==> IsStoredBook(books[i], store)
  {
    forall i | 0 <= i < |books| ensures IsStoredBook(books[i], store) {
      var id := order[i];
      assert id in store && books[i] == ToBook(id, store[id]);
    }
  }

  /** Every stored book appears among the books mapped from a scan. */
  lemma StoredBooksAreMapped(store: Store, order: seq<Id>, books: seq<Book>)
    requires IsScanOf(order, store)
    requires |books| == |order|
    requires forall i :: 0 <= i < |order| ==> books[i] == ToBook(order[i], store[order[i]])
    ensures forall id :: id in store ==> IsListed(id, store, books)
  {
    forall id | id in store ensures IsListed(id, store, books) {
      var i :| 0 <= i < |order| && order[i] == id;
      assert books[i] == ToBook(id, store[id]);
    }
  }

  /** The list built from a scan of the store holds each stored book once. */
  lemma ListBooksEachOnce(store: Store, order: seq<Id>)
    requires IsScanOf(order, store)
    ensures ListBooks(store, order).response.payload.BookList?
    ensures ListsEachOnce(ListBooks(store, order).response.payload.books, store)
  {
    var books := ListBooks(store, order).response.payload.books;
    ScanLength(order, store);
    MappedBooksAreStored(store, order, books);
    StoredBooksAreMapped(store, order, books);
    MappedIdsDistinct(store, order, books);
    assert ListsEachOnce(books, store);
  }

  /** Every GET under "/books" answers 200 with every book exactly once and changes nothing. */
  lemma ListAllReturnsEachBookOnce(store: Store, req: Request, d: Driver)
    requires ValidDriver(store, d)
    requires req.verb == "GET" && StartsWith(req.path, BooksPrefix)
    ensures Handle(store, req, d).Reply?
    ensures Handle(store, req, d).store == store
    ensures Handle(store, req, d).response.status == 200
    ensures Handle(store, req, d).response.payload.BookList?
    ensures ListsEachOnce(Handle(store, req, d).response.payload.books, store)
  {
    assert Route(req.verb, req.path) == ListAll;
    assert Handle(store, req, d) == ListBooks(store, d.scanOrder);
    ListBooksEachOnce(store, d.scanOrder);
  }

  // ---------------------------------------------------------------------------
  // Create (main.ts:53-81)

  /** A null body makes `body.title` throw. */
  lemma CreateWithNullBodyThrows(store: Store, req: Request, d: Driver)
    requires ValidDriver(store, d)
    requires req.verb == "POST" && StartsWith(req.path, BooksPrefix) && IsNullish(req.body)
    ensures Handle(store, req, d) == Uncaught(PropertyOfNullish)
  {
  }

  /** A falsy title, author or year is rejected with 400 and nothing stored. */
  lemma CreateRejectsFalsyField(store: Store, req: Request, d: Driver)
    requires ValidDriver(store, d)
    requires req.verb == "POST" && StartsWith(req.path, BooksPrefix) && !IsNullish(req.body)
    requires !Truthy(Member(req.body, Title)) || !Truthy(Member(req.body, Author)) || !Truthy(Member(req.body, Year))
    ensures Handle(store, req, d) == Reply(Response(400, JsonText(MsgFieldMissing)), store)
  {
  }

  /**
   With all three fields truthy, the answer is 403 with nothing stored exactly
   when a book with the same triple exists, and otherwise 200 echoing the new
   id with exactly one document added under it.
   */
  lemma CreateAddsUnlessDuplicate(store: Store, req: Request, d: Driver)
    requires ValidDriver(store, d)
    requires req.verb == "POST" && StartsWith(req.path, BooksPrefix) && !IsNullish(req.body)
    requires Truthy(Member(req.body, Title)) && Truthy(Member(req.body, Author)) && Truthy(Member(req.body, Year))
    ensures var f := BodyFields(req.body);
      f in store.Values <==> Handle(store, req, d) == Reply(Response(403, PlainText(MsgExists)), store)
    ensures var f := BodyFields(req.body);
      f !in store.Values <==>
        Handle(store, req, d) == Reply(Response(200, Inserted(d.freshId, f.title, f.author, f.year)), store[d.freshId := f])
    ensures var o := Handle(store, req, d);
      o.response.status == 200 ==> |o.store| == |store| + 1 && forall id :: id in store ==> id in o.store && o.store[id] == store[id]
  {
    var f := BodyFields(req.body);
    if f !in store.Values {
      assert d.freshId !in store;
      assert (store[d.freshId := f]).Keys == store.Keys + {d.freshId};
    }
  }

  // ---------------------------------------------------------------------------
  // Update (main.ts:84-124)

  /** A body with no truthy field is rejected with 400 and nothing changes. */
  lemma UpdateRejectsEmptyBody(store: Store, req: Request, d: Driver)
    requires ValidDriver(store, d)
    requires req.verb == "PUT" && StartsWith(req.path, ByIdPrefix) && !IsNullish(req.body)
    requires !Truthy(Member(req.body, Title)) && !Truthy(Member(req.body, Author)) && !Truthy(Member(req.body, Year))
    ensures Handle(store, req, d) == Reply(Response(400, ErrorObject(MsgNeedOneField)), store)
  {
  }

  /**
   A successful update replaces all three fields of the target with the
   body's values (absent ones are stored as null), touches no other book, and
   echoes `body.id` rather than the id in the path. When nothing would change
   (no such book, or equal values) the answer is 404 and nothing changes.
   */
  lemma UpdateOverwritesTarget(store: Store, req: Request, d: Driver, id: Id)
    requires ValidDriver(store, d)
    requires req.verb == "PUT" && StartsWith(req.path, ByIdPrefix) && !IsNullish(req.body)
    requires Truthy(Member(req.body, Title)) || Truthy(Member(req.body, Author)) || Truthy(Member(req.body, Year))
    requires Parse(PathId(req.path)) == Some(id)
    ensures var f, g := BodyFields(req.body), SetFields(req.body);
      id in store && store[id] != g ==>
        Handle(store, req, d)
          == Reply(Response(200, Updated(MsgUpdated, Member(req.body, IdKey), f.title, f.author, f.year)), store[id := g])
    ensures var g := SetFields(req.body);
      !(id in store && store[id] != g) ==>
        Handle(store, req, d) == Reply(Response(404, JsonText(MsgIdNotExist)), store)
    ensures var o := Handle(store, req, d);
      && o.store.Keys == store.Keys
      && (forall k :: k in store && k != id ==> o.store[k] == store[k])
  {
  }

  /**
   Updating with only a title sets the stored author and year to null; the
   echo shows them absent.
   */
  lemma UpdateWithOnlyTitleClearsOthers(store: Store, id: Id, title: string, d: Driver)
    requires ValidDriver(store, d)
    requires id in store && title != ""
    requires store[id] != Fields(Str(title), Null, Null)
    ensures Handle(store, Request("PUT", "/books/_id/" + id, Obj(map["title" := Str(title)])), d)
      == Reply(Response(200, Updated(MsgUpdated, Undefined, Str(title), Undefined, Undefined)),
               store[id := Fields(Str(title), Null, Null)])
  {
    var req := Request("PUT", "/books/_id/" + id, Obj(map["title" := Str(title)]));
    ByIdPathNames(id);
    assert BodyFields(req.body) == Fields(Str(title), Undefined, Undefined);
    UpdateOverwritesTarget(store, req, d, id);
  }

  /** An id segment that is not 24 hex digits makes `new ObjectId` throw once the body passed validation. */
  lemma UpdateWithMalformedIdThrows(store: Store, req: Request, d: Driver)
    requires ValidDriver(store, d)
    requires req.verb == "PUT" && StartsWith(req.path, ByIdPrefix) && !IsNullish(req.body)
    requires Truthy(Member(req.body, Title)) || Truthy(Member(req.body, Author)) || Truthy(Member(req.body, Year))
    requires !IsHexText(PathId(req.path))
    ensures Handle(store, req, d) == Uncaught(MalformedObjectId(PathId(req.path)))
  {
  }

  // ---------------------------------------------------------------------------
  // Delete (main.ts:126-151)

  /** The "ID missing" 400 fires exactly when the fourth segment exists and is empty. */
  lemma DeleteMissingIdExactlyOnEmptySegment(store: Store, req: Request, d: Driver)
    requires ValidDriver(store, d)
    requires req.verb == "DELETE" && StartsWith(req.path, ByIdPrefix)
    ensures Handle(store, req, d) == Reply(Response(400, ErrorObject(MsgIdMissing)), store)
      <==> At(Split(req.path, '/'), 3) == Some("")
  {
    DeleteRoute(store, req, d);
    assert PathId(req.path) == "" <==> At(Split(req.path, '/'), 3) == Some("");
  }

  /** The delete branch as the handler runs it, for any path under "/books/_id". */
  lemma DeleteRoute(store: Store, req: Request, d: Driver)
    requires ValidDriver(store, d)
    requires req.verb == "DELETE" && StartsWith(req.path, ByIdPrefix)
    ensures Handle(store, req, d) == DeleteBook(store, req.path)
  {
  }

  /** An id segment that is present but not 24 hex digits makes `new ObjectId` throw. */
  lemma DeleteWithMalformedIdThrows(store: Store, req: Request, d: Driver)
    requires ValidDriver(store, d)
    requires req.verb == "DELETE" && StartsWith(req.path, ByIdPrefix)
    requires PathId(req.path) != "" && !IsHexText(PathId(req.path))
    ensures Handle(store, req, d) == Uncaught(MalformedObjectId(PathId(req.path)))
  {
    DeleteRoute(store, req, d);
  }

  /** DELETE /books/_id has no fourth segment: "undefined" passes the check and `new ObjectId` throws. */
  lemma DeleteWithoutIdSegmentThrows(store: Store, body: Value, d: Driver)
    requires ValidDriver(store, d)
    ensures Handle(store, Request("DELETE", "/books/_id", body), d) == Uncaught(MalformedObjectId("undefined"))
  {
    var req := Request("DELETE", "/books/_id", body);
    PathIdWithoutSegment();
    assert StartsWith(req.path, ByIdPrefix);
    assert !IsHexText("undefined");
    DeleteWithMalformedIdThrows(store, req, d);
  }

  /** DELETE /books/_id/ has an empty fourth segment, the one case the "ID missing" check catches. */
  lemma DeleteWithEmptyIdSegmentIsBadRequest(store: Store, body: Value, d: Driver)
    requires ValidDriver(store, d)
    ensures Handle(store, Request("DELETE", "/books/_id/", body), d) == Reply(Response(400, ErrorObject(MsgIdMissing)), store)
  {
    var req := Request("DELETE", "/books/_id/", body);
    PathIdOfEmptySegment();
    assert StartsWith(req.path, ByIdPrefix);
    DeleteMissingIdExactlyOnEmptySegment(store, req, d);
    assert At(Split(req.path, '/'), 3) == Some("");
  }

  /**
   Deleting an absent book answers 404 and changes nothing; deleting a present
   one removes it alone and answers 200 with the success text under `error`.
   */
  lemma DeleteRemovesOnlyTarget(store: Store, req: Request, d: Driver, id: Id)
    requires ValidDriver(store, d)
    requires req.verb == "DELETE" && StartsWith(req.path, ByIdPrefix)
    requires Parse(PathId(req.path)) == Some(id)
    ensures id !in store ==>
      Handle(store, req, d) == Reply(Response(404, ErrorObject(MsgNotFound)), store)
    ensures id in store ==>
      Handle(store, req, d) == Reply(Response(200, ErrorObject(MsgDeleted)), store - {id})
    ensures var o := Handle(store, req, d);
      o.Reply? && id !in o.store && forall k :: k in store && k != id ==> k in o.store && o.store[k] == store[k]
  {
    assert PathId(req.path) != "";
  }

  // ---------------------------------------------------------------------------
  // Fall-through (main.ts:155)

  /** No branch that claims a request answers with the fall-through text. */
  lemma OnlyNoRouteSaysPathNotFound(branch: Branch, store: Store, req: Request, d: Driver)
    requires ValidDriver(store, d)
    ensures var o := Dispatch(branch, store, req, d);
      o.Reply? && o.response == Response(404, PlainText(MsgNoPath)) ==> branch == NoRoute
  {
    var o := Dispatch(branch, store, req, d);
    match branch
    case ListAll =>
    case GetOne => assert o == GetBook(store, req.path);
    case Create => assert o == CreateBook(store, req.body, d.freshId);
    case Update => assert o == UpdateBook(store, req.path, req.body);
    case Delete => assert o == DeleteBook(store, req.path);
    case NoRoute =>
  }

  /** "Path not found" is the answer exactly for the requests no branch claims, and it changes nothing. */
  lemma UnroutedIsPathNotFound(store: Store, req: Request, d: Driver)
    requires ValidDriver(store, d)
    ensures !Routed(req.verb, req.path) <==> Handle(store, req, d) == Reply(Response(404, PlainText(MsgNoPath)), store)
  {
    OnlyNoRouteSaysPathNotFound(Route(req.verb, req.path), store, req, d);
  }

  // ---------------------------------------------------------------------------
  // The no-duplicate-triples invariant

  ghost predicate NoDuplicateBooks(store: Store) {
    forall a, b :: a in store && b in store && a != b ==> store[a] != store[b]
  }

  /** Every request but PUT keeps the collection free of duplicate triples. */
  lemma HandlePreservesNoDuplicates(store: Store, req: Request, d: Driver)
    requires ValidDriver(store, d) && NoDuplicateBooks(store)
    requires req.verb != "PUT"
    requires Handle(store, req, d).Reply?
    ensures NoDuplicateBooks(Handle(store, req, d).store)
  {
    var o := Handle(store, req, d);
    assert o == Dispatch(Route(req.verb, req.path), store, req, d);
    if d.freshId in o.store {
      assert Route(req.verb, req.path) == Create;
      assert o == CreateBook(store, req.body, d.freshId);
    }
  }

  /**
   A PUT that gives one book the triple of another makes a duplicate: the
   invariant is only checked on insert.
   */
  lemma UpdateCanDuplicate(store: Store, req: Request, d: Driver, a: Id, b: Id)
    requires ValidDriver(store, d)
    requires req.verb == "PUT" && StartsWith(req.path, ByIdPrefix) && !IsNullish(req.body)
    requires Parse(PathId(req.path)) == Some(b)
    requires a in store && b in store && a != b
    requires SetFields(req.body) == store[a] != store[b]
    requires Truthy(store[a].title)
    ensures Handle(store, req, d).Reply?
    ensures !NoDuplicateBooks(Handle(store, req, d).store)
  {
    UpdateOverwritesTarget(store, req, d, b);
    var o := Handle(store, req, d);
    assert o.store == store[b := store[a]];
    assert o.store[a] == o.store[b];
  }

  // ---------------------------------------------------------------------------
  // Request sequences

  /** Repeating a successful create is refused with 403 and stores nothing more. */
  lemma CreateTwiceIsRefused(store: Store, req: Request, d: Driver, d2: Driver)
    requires ValidDriver(store, d)
    requires req.verb == "POST"
    requires Handle(store, req, d).Reply? && Handle(store, req, d).response.status == 200
    requires ValidDriver(Handle(store, req, d).store, d2)
    ensures var s1 := Handle(store, req, d).store;
      Handle(s1, req, d2) == Reply(Response(403, PlainText(MsgExists)), s1)
  {
    var f := BodyFields(req.body);
    var s1 := Handle(store, req, d).store;
    assert s1 == store[d.freshId := f];
    assert s1[d.freshId] == f;
  }

  /** A listing of a store with one more document shows that document once, under its id. */
  lemma ListingShowsAddedBook(store: Store, freshId: Id, f: Fields, books: seq<Book>)
    requires freshId !in store
    requires ListsEachOnce(books, store[freshId := f])
    ensures |books| == |store| + 1
    ensures exists i :: 0 <= i < |books| && books[i] == Book(ToHexString(freshId), f.title, f.author, f.year)
  {
    var s1 := store[freshId := f];
    assert s1.Keys == store.Keys + {freshId};
    assert freshId in s1;
    var i :| 0 <= i < |books| && books[i] == ToBook(freshId, s1[freshId]);
    assert books[i] == Book(ToHexString(freshId), f.title, f.author, f.year);
  }

  /** After a successful create, a list shows the new book exactly once, under the new id. */
  lemma CreateThenListShowsBookOnce(store: Store, req: Request, d: Driver, list: Request, d2: Driver)
    requires ValidDriver(store, d)
    requires req.verb == "POST"
    requires Handle(store, req, d).Reply? && Handle(store, req, d).response.status == 200
    requires list.verb == "GET" && StartsWith(list.path, BooksPrefix)
    requires ValidDriver(Handle(store, req, d).store, d2)
    ensures var books := Handle(Handle(store, req, d).store, list, d2).response.payload.books;
      var f := BodyFields(req.body);
      && |books| == |store| + 1
      && (exists i :: 0 <= i < |books| && books[i] == Book(ToHexString(d.freshId), f.title, f.author, f.year))
      && forall i, j :: 0 <= i < j < |books| ==> books[i].id != books[j].id
  {
    var f := BodyFields(req.body);
    var s1 := Handle(store, req, d).store;
    assert s1 == store[d.freshId := f] by {
      CreateAddsUnlessDuplicate(store, req, d);
    }
    ListAllReturnsEachBookOnce(s1, list, d2);
    ListingShowsAddedBook(store, d.freshId, f, Handle(s1, list, d2).response.payload.books);
  }

  /** With the intended routing, a GET after a successful DELETE of the same id answers 400 not found. */
  lemma DeleteThenGetIsNotFound(store: Store, id: Id, body: Value, d: Driver, d2: Driver)
    requires ValidDriver(store, d)
    requires id in store
    requires ValidDriver(store - {id}, d2)
    ensures Handle(store, Request("DELETE", "/books/_id/" + id, body), d) == Reply(Response(200, ErrorObject(MsgDeleted)), store - {id})
    ensures HandleIntended(store - {id}, Request("GET", "/books/_id/" + id, body), d2)
      == Reply(Response(400, ErrorObject(MsgNotFound)), store - {id})
  {
    ByIdPathNames(id);
    DeleteRemovesOnlyTarget(store, Request("DELETE", "/books/_id/" + id, body), d, id);
    IntendedGetById(store - {id}, Request("GET", "/books/_id/" + id, body), d2, id);
  }
}

=== FILE: json.dfy ===
/**
 The JavaScript values a request body can hold once parsed as JSON, plus
 `undefined`, which is what reading a missing property yields.
 */
module Json {

  /**
   Numbers are JavaScript doubles, modelled as reals: rounding, and the
   overflow of a huge literal to Infinity, are not modelled.
   */
  datatype Value =
    | Undefined
    | Null
    | Bool(b: bool)
    | Num(x: real)
    | Str(s: string)
    | Arr(items: seq<Value>)
    | Obj(fields: map<string, Value>)

  /** JavaScript's ToBoolean: what `!v` negates. */
  predicate Truthy(v: Value) {
    match v
    case Undefined => false
    case Null => false
    case Bool(b) => b
    case Num(x) => x != 0.0
    case Str(s) => s != ""
    case Arr(_) => true
    case Obj(_) => true
  }

  /** Exactly five values are falsy; a body field holding any other passes the checks. */
  lemma FalsyValues(v: Value)
    ensures !Truthy(v) <==> v in {Undefined, Null, Bool(false), Num(0.0), Str("")}
  {
  }

  /** Reading any property of these throws a TypeError. */
  predicate IsNullish(v: Value) {
    v.Undefined? || v.Null?
  }

  /** The only body properties the handler reads. */
  datatype Key = Title | Author | Year | IdKey

  function KeyName(k: Key): string {
    match k
    case Title => "title"
    case Author => "author"
    case Year => "year"
    case IdKey => "id"
  }

  /**
   The property read `v.key`. Booleans, numbers, strings and arrays have none
   of the four keys, so reading one from them yields undefined, as does a key
   the object lacks.
   */
  function Member(v: Value, k: Key): Value
    requires !IsNullish(v)
  {
    match v
    case Obj(fields) => if KeyName(k) in fields then fields[KeyName(k)] else Undefined
    case _ => Undefined
  }
}

=== FILE: object_ids.dfy ===
/**
 MongoDB ObjectIds as the handler sees them: `new ObjectId(text)` accepts
 exactly 24 hexadecimal digits in either case and throws otherwise, and
 `toString()` gives the 24 lower-case digits back.
 */
module ObjectIds {
  import opened Optional

  const HexLength := 24

  predicate IsHexDigit(c: char) {
    '0' <= c <= '9' || 'a' <= c <= 'f' || 'A' <= c <= 'F'
  }

  predicate IsLowerHexDigit(c: char) {
    '0' <= c <= '9' || 'a' <= c <= 'f'
  }

  /** Text `new ObjectId(text)` accepts. */
  predicate IsHexText(s: string) {
    |s| == HexLength && forall i :: 0 <= i < |s| ==> IsHexDigit(s[i])
  }

  predicate IsCanonical(s: string) {
    |s| == HexLength && forall i :: 0 <= i < |s| ==> IsLowerHexDigit(s[i])
  }

  /** An ObjectId, represented by its canonical text. */
  type Id = s: string | IsCanonical(s) witness "000000000000000000000000"

  function LowerDigit(c: char): (d: char)
    requires IsHexDigit(c)
    ensures IsLowerHexDigit(d)
    ensures IsLowerHexDigit(c) ==> d == c
  {
    if 'A' <= c <= 'F' then (c as int - 'A' as int + 'a' as int) as char else c
  }

  /** `new ObjectId(s)`: None stands for the error the constructor throws. */
  function Parse(s: string): (r: Option<Id>)
    ensures r.Some? <==> IsHexText(s)
    ensures r.Some? ==> forall i :: 0 <= i < |s| ==> r.value[i] == LowerDigit(s[i])
  {
    if IsHexText(s) then Some(seq(|s|, i requires 0 <= i < |s| => LowerDigit(s[i])))
    else None
  }

  /** `id.toString()`. */
  function ToHexString(id: Id): (s: string)
    ensures IsCanonical(s) && IsHexText(s)
  {
    id
  }

  /** The text form of an ObjectId parses back to the same ObjectId. */
  lemma ParseToHexString(id: Id)
    ensures Parse(ToHexString(id)) == Some(id)
  {
    var r := Parse(ToHexString(id));
    assert r.value == id;
  }

  /** Two texts that differ only in letter case name the same ObjectId. */
  lemma ParseIgnoresCase(s: string, t: string)
    requires IsHexText(s) && IsHexText(t)
    requires forall i :: 0 <= i < HexLength ==> LowerDigit(s[i]) == LowerDigit(t[i])
    ensures Parse(s) == Parse(t)
  {
    assert Parse(s).value == Parse(t).value;
  }
}

=== FILE: optional.dfy ===
/** The usual Some/None wrapper, used for values that may be absent. */
module Optional {

  datatype Option<+T> = None | Some(value: T)
}

=== FILE: paths.dfy ===
/**
 The string operations the router applies to a URL path: the `startsWith`
 prefix test, `split` on a one-character separator, `Array.prototype.at`
 and `String(...)` of its possibly-undefined result.
 */
module Paths {
  import opened Optional

  /** `s.startsWith(prefix)`. */
  predicate StartsWith(s: string, prefix: string) {
    prefix <= s
  }

  /**
   `s.split(sep)` for a one-character separator: the maximal runs between
   separators, so there is always one more part than there are separators.
   */
  function Split(s: string, sep: char): (parts: seq<string>)
    ensures |parts| >= 1
    decreases |s|
  {
    if |s| == 0 then [""]
    else
      var rest := Split(s[1..], sep);
      if s[0] == sep then [""] + rest
      else [[s[0]] + rest[0]] + rest[1..]
  }

  /** No part of a split contains the separator. */
  lemma {:induction false} SplitPartsLackSep(s: string, sep: char)
    ensures forall i :: 0 <= i < |Split(s, sep)| ==> sep !in Split(s, sep)[i]
    decreases |s|
  {
    if |s| > 0 {
      SplitPartsLackSep(s[1..], sep);
      var rest := Split(s[1..], sep);
      if s[0] != sep {
        var parts := Split(s, sep);
        assert parts[0] == [s[0]] + rest[0];
        forall i | 1 <= i < |parts| ensures sep !in parts[i] {
          assert parts[i] == rest[i];
        }
      }
    }
  }

  /** `parts.join(sep)`, the inverse of Split. */
  function Join(parts: seq<string>, sep: char): string
    decreases |parts|
  {
    if |parts| == 0 then ""
    else if |parts| == 1 then parts[0]
    else parts[0] + [sep] + Join(parts[1..], sep)
  }

  /** `xs.at(i)` for a non-negative index. */
  function At<T>(xs: seq<T>, i: nat): Option<T> {
    if i < |xs| then Some(xs[i]) else None
  }

  /** `String(x)` for x a string or undefined. */
  function StringOf(x: Option<string>): string {
    match x
    case Some(s) => s
    case None => "undefined"
  }

  lemma {:induction false} JoinConsHead(c: char, parts: seq<string>, sep: char)
    requires |parts| >= 1
    ensures Join([[c] + parts[0]] + parts[1..], sep) == [c] + Join(parts, sep)
  {
    var ps := [[c] + parts[0]] + parts[1..];
    assert ps[1..] == parts[1..];
    if |parts| > 1 {
      assert Join(ps, sep) == ps[0] + [sep] + Join(ps[1..], sep);
    }
  }

  /** Joining the parts of a split gives back the original string. */
  lemma {:induction false} JoinSplit(s: string, sep: char)
    ensures Join(Split(s, sep), sep) == s
    decreases |s|
  {
    if |s| > 0 {
      var rest := Split(s[1..], sep);
      JoinSplit(s[1..], sep);
      if s[0] == sep {
        var ps := [""] + rest;
        assert ps[1..] == rest;
        assert Join(ps, sep) == "" + [sep] + Join(rest, sep);
        assert s == [s[0]] + s[1..];
      } else {
        JoinConsHead(s[0], rest, sep);
        assert s == [s[0]] + s[1..];
      }
    }
  }

  /** A string without the separator splits into itself alone. */
  lemma {:induction false} SplitWithoutSep(s: string, sep: char)
    requires sep !in s
    ensures Split(s, sep) == [s]
    decreases |s|
  {
    if |s| > 0 {
      assert sep !in s[1..] by {
        forall k | 0 <= k < |s[1..]| ensures s[1..][k] != sep {
          assert s[1..][k] == s[k + 1];
        }
      }
      SplitWithoutSep(s[1..], sep);
      assert [s[0]] + s[1..] == s;
    }
  }

  /** Split unfolded at a leading separator. */
  lemma SplitConsSep(t: string, sep: char)
    ensures Split([sep] + t, sep) == [""] + Split(t, sep)
  {
    assert ([sep] + t)[1..] == t;
  }

  /** Split unfolded at a leading character that is not the separator. */
  lemma SplitConsOther(c: char, t: string, sep: char)
    requires c != sep
    ensures Split([c] + t, sep) == [[c] + Split(t, sep)[0]] + Split(t, sep)[1..]
  {
    assert ([c] + t)[1..] == t;
  }

  /** The inductive step of SplitAround for a leading separator. */
  lemma SplitAroundStepSep(a: string, b: string, sep: char)
    requires Split(a + [sep] + b, sep) == Split(a, sep) + Split(b, sep)
    ensures Split([sep] + (a + [sep] + b), sep) == Split([sep] + a, sep) + Split(b, sep)
  {
    SplitConsSep(a + [sep] + b, sep);
    SplitConsSep(a, sep);
    var sa := Split(a, sep);
    var sb := Split(b, sep);
    assert [""] + (sa + sb) == ([""] + sa) + sb;
  }

  /** The inductive step of SplitAround for any other leading character. */
  lemma SplitAroundStepOther(c: char, a: string, b: string, sep: char)
    requires c != sep
    requires Split(a + [sep] + b, sep) == Split(a, sep) + Split(b, sep)
    ensures Split([c] + (a + [sep] + b), sep) == Split([c] + a, sep) + Split(b, sep)
  {
    var sa := Split(a, sep);
    var sb := Split(b, sep);
    SplitConsOther(c, a + [sep] + b, sep);
    SplitConsOther(c, a, sep);
    ConsHeadAppend([c], sa, sb);
  }

  /** Prepending to the first part commutes with appending more parts. */
  lemma ConsHeadAppend(p: string, xs: seq<string>, ys: seq<string>)
    requires |xs| >= 1
    ensures [p + (xs + ys)[0]] + (xs + ys)[1..] == ([p + xs[0]] + xs[1..]) + ys
  {
    assert (xs + ys)[0] == xs[0];
    assert (xs + ys)[1..] == xs[1..] + ys;
  }

  /** Splitting at a separator splits each side independently. */
  lemma {:induction false} SplitAround(a: string, b: string, sep: char)
    ensures Split(a + [sep] + b, sep) == Split(a, sep) + Split(b, sep)
    decreases |a|
  {
    if |a| == 0 {
      assert a + [sep] + b == [sep] + b;
      SplitConsSep(b, sep);
    } else {
      SplitAround(a[1..], b, sep);
      assert a + [sep] + b == [a[0]] + (a[1..] + [sep] + b);
      assert [a[0]] + a[1..] == a;
      if a[0] == sep {
        SplitAroundStepSep(a[1..], b, sep);
      } else {
        SplitAroundStepOther(a[0], a[1..], b, sep);
      }
    }
  }

  /** Splitting a join of separator-free parts gives back the parts. */
  lemma {:induction false} SplitJoin(parts: seq<string>, sep: char)
    requires |parts| >= 1
    requires forall i :: 0 <= i < |parts| ==> sep !in parts[i]
    ensures Split(Join(parts, sep), sep) == parts
    decreases |parts|
  {
    if |parts| == 1 {
      SplitWithoutSep(parts[0], sep);
    } else {
      SplitJoin(parts[1..], sep);
      SplitWithoutSep(parts[0], sep);
      SplitAround(parts[0], Join(parts[1..], sep), sep);
      assert [parts[0]] + parts[1..] == parts;
    }
  }

  /** A prefix of a prefix is a prefix: `startsWith` is transitive. */
  lemma StartsWithTransitive(s: string, p: string, q: string)
    requires StartsWith(s, q) && StartsWith(q, p)
    ensures StartsWith(s, p)
  {
    assert q[..|p|] == p;
    assert s[..|q|] == q;
    assert s[..|p|] == q[..|p|];
  }
}
